=== FILE: README.md ===
# Linguist heuristics: a Dafny model

Linguist picks a language for a file. When the file name alone is ambiguous
(`.h`, `.mod`, `.ml`, manual-page suffixes, …), `Heuristics.call(blob,
candidates)` looks at the content. It finds the rule keyed on the blob's name
and runs that rule's ordered content tests. The first test that holds
decides the result: no language, one language, or a fixed group of
languages.

This project models the following pieces of that step, as far as
`test/test_heuristics.rb` fixes them:

- **The engine** (`heuristics.dfy`, module `Heuristics`).
  - A `Rule` has file-name extensions and an ordered list of `Test`s.
  - Each test pairs a `Pattern` with an `Outcome`.
  - Regular-expression searches are left uninterpreted. They go to an
    `Engine` parameter, which answers `Matched`, `Unmatched` or `TimedOut`.
  - `Call` works like this:
    - a symbolic link gives `[]`;
    - the rule is the first one that has an extension which is a
      case-insensitive suffix of the blob's name;
    - that rule's tests run in order, and the first test that holds commits
      its outcome;
    - if no test holds, or a search times out, the result is `[]`.
  - The candidate list is accepted but never consulted: a non-empty list does
    not filter the result, and an empty list does not end the call early.
- **The concrete rules the tests pin down** (`known_rules.dfy`, module
  `KnownRules`): the manual-page family, `.h` (falls back to C), `.ml` (no
  decision when ambiguous) and `.mod` (falls back to the pair Linux Kernel
  Module, AMPL).
- **The test oracle** (`oracle.dfy`, module `Oracle`). This is
  `assert_heuristics` with its key encoding:
  - `nil` means `[]`;
  - an array means that list, in order;
  - a name means a one-element list.
  It also covers Ruby hash-literal semantics, where a duplicate key keeps
  only its last value.
- **The extension-listing validator** (`validator.dfy`, module `Validator`).
  It is modelled both as written and as evidently intended.

`text.dfy` holds the ASCII lower-casing and suffix helpers. It also holds a
small `Option` type.

## Model

| member | source | states |
|---|---|---|
| Heuristics.Call | test/test_heuristics.rb:28-43 | A symbolic link gives `[]`. A name no rule applies to gives `[]`. Otherwise the result is the outcome of the first test of the chosen rule that holds. A timed-out search before any match gives `[]`. |
| Heuristics.SelectRule | test/test_heuristics.rb:45-47 | The chosen rule is the first rule with an extension that is a case-insensitive suffix of the blob's name. No earlier rule applies. If no rule applies, the index is `|rules|`. |
| Heuristics.Evaluate | test/test_heuristics.rb:89-95 | The run commits exactly when some test is the first one that holds. It then commits that test's outcome. It aborts exactly when a search times out before any match. It is "no match" exactly when every test fails. |
| Heuristics.SelectionIgnoresCase | test/test_heuristics.rb:409-415 | Two names that lower-case alike select the same rule. |
| Heuristics.CallIgnoresNameCase | test/test_heuristics.rb:888-893 | Two blobs whose names differ only in letter case get the same result. |
| Heuristics.CallIgnoresCandidates | test/test_heuristics.rb:48-49 | The result does not depend on the candidate list. |
| Heuristics.CallStaysWithinRule | test/test_heuristics.rb:715-723 | Every language in a non-empty result is one the chosen rule's outcomes name. |
| Heuristics.TimeoutGivesEmpty | test/test_heuristics.rb:38-43 | If every search times out and the chosen rule starts with a search, the call returns `[]`. |
| Heuristics.NoRuleGivesEmpty | test/test_heuristics.rb:28-32 | A name that no rule applies to yields `[]` for any content and any candidates, including an empty list. |
| Heuristics.OutcomeLanguagesCover | test/test_heuristics.rb:76 | Each test's outcome languages appear among the languages of the rule's tests. |
| KnownRules.ManpageFamily | test/test_heuristics.rb:89-231 | For every suffix from `.1` to `.9`, `.1in` to `.3x`, `.man` and `.mdoc`, the name `man<suffix>` goes through one rule. The result is `Roff Manpage` exactly when the manpage search holds. It is `Roff` exactly when only the roff search holds. Otherwise it is `[]`. |
| KnownRules.HeaderDefaultsToC | test/test_heuristics.rb:540-546 | When no search times out, a `.h` file always gets a decision. It is Objective-C, else C++, else C. |
| KnownRules.MlDefersWhenAmbiguous | test/test_heuristics.rb:701-713 | An `.ml` file yields OCaml, Standard ML or `[]`. It yields `[]` whenever neither search holds. |
| KnownRules.ModYieldsPair | test/test_heuristics.rb:715-723 | A `.mod` file that none of the Modula-2, NMODL and XML searches claims yields `[Linux Kernel Module, AMPL]`, in that order. |
| KnownRules.JavaScriptHasNoRule | test/test_heuristics.rb:28-32 | With the four rules of the table, `namespace.js` selects no rule and yields `[]` with an empty candidate list, whatever its content. |
| KnownRules.UpperCaseSuffixesRouteAlike | test/test_heuristics.rb:409-415 | For any rule table, `*.R` and `*.E` files get the same results as `*.r` and `*.e` files. |
| Oracle.Expected | test/test_heuristics.rb:56-62 | The expected result a key asks for: `nil` gives `[]`, an array gives its names in order, and a name gives a one-element list. `Oracle.KeyRoundTrip` shows that this decoding inverts `Oracle.KeyFor` on every key except an array of fewer than two names. |
| Oracle.KeyFor | test/test_heuristics.rb:56-62 | Every expected result has a key that encodes it. An array key is needed only for two or more languages. |
| Oracle.KeyRoundTrip | test/test_heuristics.rb:56-62 | Decoding a key and encoding the result again gives back the same key. The exception is an array of fewer than two names. Its expected result never changes. |
| Oracle.HashLiteral | test/test_heuristics.rb:720-721 | A hash literal has distinct keys. Every key written in the literal is present. Each key holds the value of its last occurrence. |
| Oracle.CheckBlobs | test/test_heuristics.rb:54-64 | The fixtures of one key pass exactly when each gets the key's expected result. A failure names a fixture whose actual result differs from the expected one. |
| Oracle.CheckBlobsStopsAtFirst | test/test_heuristics.rb:54-64 | A failure is the one `assert_equal` raises for the first mismatching fixture: every earlier fixture gets the key's result. |
| Oracle.CheckEntries | test/test_heuristics.rb:51-65 | The entries pass exactly when every key has at least one fixture and every fixture gets its key's result. A failure names an empty key or a mismatching fixture. |
| Oracle.CheckEntriesStopsAtFirst | test/test_heuristics.rb:51-65 | A failure belongs to the first entry, in hash order, that breaks its promise: every earlier entry agrees. It is the blob-count failure when that entry has no fixtures, and its first mismatching fixture otherwise. |
| Oracle.AssertHeuristics | test/test_heuristics.rb:48-66 | With the hash keys resolved as candidates, the assertion passes exactly when every entry has a fixture and each fixture agrees with its key. A failure is the first failed assertion in hash and fixture order, and a mismatch names a fixture of the hash together with its key's expected result. |
| Oracle.ModLiteralDropsKernelFixtures | test/test_heuristics.rb:715-723 | The `.mod` literal builds a four-entry hash. The pair key holds only the AMPL fixtures. The candidates are Modula-2, NMODL, XML and `nil`. |
| Oracle.ModAssertionChecksAmplOnly | test/test_heuristics.rb:715-723 | Every AMPL fixture that falls through to the pair passes the `.mod` assertion. Neither paired language is a candidate. |
| Oracle.MergedModLiteralChecksBoth | test/test_heuristics.rb:720-721 | With the pair key written once, both fixture groups sit under it, and every fixture that falls through passes. |
| Validator.SelectSuffixed | test/test_heuristics.rb:79 | The selection holds exactly the file names that end with the extension, ignoring case. |
| Validator.Unlisted | test/test_heuristics.rb:77-82 | The rejected list holds exactly the rule's extensions that the language does not account for. Its first element is the first such extension in rule order, which `unlisted.first` reports. |
| Validator.CheckLanguages | test/test_heuristics.rb:76-85 | One rule passes exactly when all of its languages are known and account for all of its extensions. A report names the first failing language in the rule's order: every earlier one is known and accounts for every extension. A missing-extension report names the first extension in rule order that this language does not account for. |
| Validator.Validate | test/test_heuristics.rb:74-87 | The check passes exactly when every rule passes. A `NotAssigned` report names a rule's language and the first of that rule's extensions, in rule order, that the language does not account for. |
| Validator.ValidateStopsAtFirst | test/test_heuristics.rb:74-87 | A report, `NotAssigned` or `UnknownLanguage`, is the report of the first failing rule: every earlier rule passes. |
| Validator.ListedAsWritten | test/test_heuristics.rb:78-79 | The value of `lang.extensions.include?(ext) or lang.filenames.select {…}`: `true` when the extension is declared, otherwise the array of file names that end with it, which may be empty. `Validator.AsWrittenAcceptsEveryExtension` shows this value is always truthy, and `Validator.AsWrittenNothingUnlisted` shows nothing is rejected. |
| Validator.AsWrittenNothingUnlisted | test/test_heuristics.rb:77-80 | As written, nothing is ever rejected as unlisted. |
| Validator.AsWrittenNeverReportsUnlisted | test/test_heuristics.rb:74-87 | As written, the check never reports a missing extension. |
| Validator.VacuousCounterexample | test/test_heuristics.rb:77-80 | Take a rule keyed on `.foo` whose only language declares `.x` and the file name `Xfile`. The written check passes it. The intended check reports `.foo`. |
| Validator.IntendedValidateSound | test/test_heuristics.rb:74-87 | The intended check passes exactly when every rule's extensions are declared by every language the rule names, as an extension or as a file-name suffix. Any report names a truly missing extension. |

## Left out

- Sources: the behaviour is taken from `test/test_heuristics.rb`. The `Heuristics` class, its rule data (`heuristics.yml`) and the language registry (`languages.yml`) are not part of this model. Four choices shape the engine:
  - results are not filtered by the candidates. The tests fix this for a non-empty list: at lines 720-721 the expected pair is not among the candidates.
  - an empty candidate list does not end the call early with `[]`; the rule still runs, so `Call(Table, Blob("x.h", c, false), [], engine)` gives `["C"]` when both searches come back unmatched. This is a modelling choice the tests are consistent with but do not fix: the only call with no candidates (`test_no_match`, lines 28-32) names a `.js` file that no rule claims, so it gives `[]` either way.
  - only the first rule that applies to the name runs, and later rules are not tried. This is a modelling choice the tests are consistent with but do not fix, because no tested name can be claimed by two rules: a suffix match includes the dot, so a name with a single extension matches only a rule that lists that whole extension.
  - a timed-out search ends the whole call with `[]`. This is also a modelling choice the tests are consistent with but do not fix: at lines 38-43, treating the timeout as one failed test gives `[]` as well unless the rule has a fallback test without a pattern.
- No-decision outcome: a test whose outcome is no decision commits `[]` when it holds and ends the run; later tests and rules are not tried. This follows the rule that the first test that holds commits its outcome. A reading in which no decision means "go on to the next test" is not modelled.
- Regular expressions: the Ruby `Regexp` engine and the text of every pattern are out of scope. A pattern is a label handed to the `Engine` parameter.
- Timeouts: the Ruby 3.2 version gate and the mocha stub are out of scope. A timeout is the `TimedOut` answer of the engine.
- Rule table: the concrete table holds only the manual-page, `.h`, `.ml` and `.mod` rules, whose outcomes the tests fix whatever the patterns say, with one reservation for the manual-page rule. Only the tests for `.1` to `.9` carry a `nil` key (lines 94, 124, 133, 184, 193, 202, 211, 220, 229). The tests for the other eleven suffixes (`.1in`, `.1m`, `.1x`, `.3in`, `.3m`, `.3p`, `.3pm`, `.3qt`, `.3x`, lines 98-177; `.man`, lines 667-672; `.mdoc`, lines 694-699) have only `Roff Manpage` and `Roff` keys. That these eleven share the rule of `.1` to `.9`, and give `[]` when neither search holds, is a design choice the tests do not fix. The order of the specific tests within a rule is not fixed by the tests: the table puts Objective-C before C++ for `.h`, OCaml before Standard ML for `.ml`, and Modula-2, NMODL, XML for `.mod`. `KnownRules.HeaderDefaultsToC` and `KnownRules.MlDefersWhenAmbiguous` depend on the `.h` and `.ml` orders (which language a content matching both searches gets); no lemma depends on the `.mod` order.
- Content cap: the limit on how many bytes of content are inspected is not part of this model.
- Fixtures: fixture discovery and reading (`all_fixtures`, `Dir.glob`, `File.read`, `FileBlob`, the on-disk symlink test) are out of scope. A blob is its name, its content and a symlink flag. A name comes from the path, and an `alt_name` replaces it.
- `Linguist.detect` (lines 68-72) depends on the strategy pipeline and the statistical classifier, which are not part of this model.
- Text.Lower: lower-cases ASCII letters only, while Ruby's `downcase` is Unicode-aware. All extensions involved are ASCII.
- Oracle.Lookup: `Language[name]` is modelled as the name itself. A missing language name is not modelled. `nil` and array keys resolve to `nil`.
- Oracle.HashLiteral: states distinct keys, key coverage and last-value semantics. It does not state in general that entries keep the position of their first insertion. That is shown for the `.mod` literal only, by `Oracle.ModLiteralDropsKernelFixtures`.
- Validator.Validate: `rule.languages` is modelled as the languages the rule's outcomes name, looked up in a registry map. A name missing from the registry is reported as `UnknownLanguage`, where Ruby would fail with an exception on `nil`.
- Concurrency: there is none in the logic modelled.

## Findings

| source | as written | input that shows it | evidently intended | confidence | as-written member | corrected member |
|---|---|---|---|---|---|---|
| test/test_heuristics.rb:77-80 | The file-name test is `lang.filenames.select {…}`. It returns an array, and every array is truthy in Ruby, so `reject` rejects nothing and the check can never fail. | A rule keyed on `.foo` whose language declares only the extension `.x` and the file name `Xfile` (`Validator.VacuousCounterexample`). | `lang.filenames.any? {…}`: an extension counts as listed only when some file name ends with it. | high; not executed | Validator.AsWrittenNeverReportsUnlisted | Validator.IntendedValidateSound |
| test/test_heuristics.rb:720-721 | The `.mod` hash literal writes the key `["Linux Kernel Module", "AMPL"]` twice. Ruby keeps only the second value. | The `.mod` literal itself: the Linux Kernel Module fixtures are never passed to the oracle. | Both fixture groups under one key. | high; not executed | Oracle.ModLiteralDropsKernelFixtures | Oracle.MergedModLiteralChecksBoth |

=== FILE: heuristics.dfy ===
/** The disambiguation engine behind `Heuristics.call(blob, candidates)`.

    A rule names file-name extensions and carries an ordered list of tests;
    each test pairs a content predicate with an outcome. The predicates are
    uninterpreted: a regular-expression search is delegated to an `Engine`
    parameter, which may report that the search timed out. */
module Heuristics {
  import opened Text
  import opened Options

  type LangName = string

  /** `Language[name]` as the caller passes it; `None` stands for Ruby's `nil`. */
  type Candidate = Option<LangName>

  /** A content predicate. `Always` is a test without a pattern, which
      matches without consulting the regular-expression engine; `Regex`
      names a search whose text lives in the rule data. */
  datatype Pattern = Always | Regex(source: string)

  /** What a test commits to when its predicate holds. */
  datatype Outcome = NoDecision | One(language: LangName) | Group(languages: seq<LangName>)

  datatype Test = Test(pattern: Pattern, outcome: Outcome)

  datatype Rule = Rule(extensions: seq<string>, tests: seq<Test>)

  /** The parts of a blob the engine looks at: its name (from its path), its
      content, and whether it is a symbolic link. */
  datatype Blob = Blob(name: string, content: string, symlink: bool)

  /** The result of one regular-expression search. */
  datatype Search = Matched | Unmatched | TimedOut

  /** The regular-expression engine: (pattern source, content) to a search result. */
  type Engine = (string, string) -> Search

  /** How running a rule's tests ends. */
  datatype Run = Committed(outcome: Outcome) | NoMatch | Aborted

  /** The language list an outcome stands for: none, one name, or the group
      in its own order. */
  function Languages(o: Outcome): seq<LangName>
  {
    match o
    case NoDecision => []
    case One(l) => [l]
    case Group(ls) => ls
  }

  /** Every language some test of the list can commit to, in test order. */
  function OutcomeLanguages(tests: seq<Test>): seq<LangName>
  {
    if tests == [] then [] else Languages(tests[0].outcome) + OutcomeLanguages(tests[1..])
  }

  lemma {:induction false} OutcomeLanguagesCover(tests: seq<Test>, i: nat)
    requires i < |tests|
    ensures forall l :: l in Languages(tests[i].outcome) ==> l in OutcomeLanguages(tests)
  {
    if i > 0 {
      OutcomeLanguagesCover(tests[1..], i - 1);
      assert tests[1..][i - 1] == tests[i];
    }
  }

  // ---------------------------------------------------------------------------
  // Rule selection

  /** A rule applies to a name when one of its extensions is a
      case-insensitive suffix of it. */
  predicate Selects(rule: Rule, name: string)
  {
    exists e :: 0 <= e < |rule.extensions| && EndsWithIgnoreCase(name, rule.extensions[e])
  }

  /** Index of the rule chosen for a name: the first one that applies, or
      `|rules|` when none does. */
  function SelectRule(rules: seq<Rule>, name: string): (k: nat)
    ensures k <= |rules|
    ensures k < |rules| ==> Selects(rules[k], name)
    ensures forall j :: 0 <= j < k ==> !Selects(rules[j], name)
  {
    if rules == [] then 0
    else if Selects(rules[0], name) then 0
    else 1 + SelectRule(rules[1..], name)
  }

  /** The chosen rule depends on the name only through its lower-cased form. */
  lemma SelectionIgnoresCase(rules: seq<Rule>, a: string, b: string)
    requires Lower(a) == Lower(b)
    ensures SelectRule(rules, a) == SelectRule(rules, b)
  {
    forall r: Rule
      ensures Selects(r, a) <==> Selects(r, b)
    {
      forall e | 0 <= e < |r.extensions|
        ensures EndsWithIgnoreCase(a, r.extensions[e]) <==> EndsWithIgnoreCase(b, r.extensions[e])
      {
        IgnoreCaseDependsOnLower(a, b, r.extensions[e]);
      }
    }
  }

  // ---------------------------------------------------------------------------
  // Running a rule's tests

  /** The verdict of one predicate on the content. */
  function Holds(p: Pattern, content: string, engine: Engine): Search
  {
    match p
    case Always => Matched
    case Regex(source) => engine(source, content)
  }

  /** Test `i` is the first one whose predicate holds, every earlier one
      having been evaluated to a plain "no". */
  predicate FirstMatchAt(tests: seq<Test>, content: string, engine: Engine, i: int)
  {
    && 0 <= i < |tests|
    && Holds(tests[i].pattern, content, engine) == Matched
    && forall j :: 0 <= j < i ==> Holds(tests[j].pattern, content, engine) == Unmatched
  }

  /** Test `i` is the first one whose evaluation times out, every earlier one
      having been evaluated to a plain "no". */
  predicate FirstTimeoutAt(tests: seq<Test>, content: string, engine: Engine, i: int)
  {
    && 0 <= i < |tests|
    && Holds(tests[i].pattern, content, engine) == TimedOut
    && forall j :: 0 <= j < i ==> Holds(tests[j].pattern, content, engine) == Unmatched
  }

  /** Index of the first test whose predicate is not a plain "no", or `|tests|`. */
  function FirstDecisive(tests: seq<Test>, content: string, engine: Engine): (i: nat)
    ensures i <= |tests|
    ensures i < |tests| ==> Holds(tests[i].pattern, content, engine) != Unmatched
    ensures forall j :: 0 <= j < i ==> Holds(tests[j].pattern, content, engine) == Unmatched
  {
    if tests == [] then 0
    else if Holds(tests[0].pattern, content, engine) != Unmatched then 0
    else 1 + FirstDecisive(tests[1..], content, engine)
  }

  /** Tests run in order; the first predicate that holds commits its outcome,
      a timeout abandons the run, and running out of tests is "no match". */
  function Evaluate(tests: seq<Test>, content: string, engine: Engine): (r: Run)
    ensures r.Committed? <==> exists i :: FirstMatchAt(tests, content, engine, i)
    ensures forall i :: FirstMatchAt(tests, content, engine, i) ==> r == Committed(tests[i].outcome)
    ensures r.Aborted? <==> exists i :: FirstTimeoutAt(tests, content, engine, i)
    ensures r.NoMatch? <==> forall i :: 0 <= i < |tests| ==> Holds(tests[i].pattern, content, engine) == Unmatched
  {
    var i := FirstDecisive(tests, content, engine);
    if i == |tests| then NoMatch
    else if Holds(tests[i].pattern, content, engine) == Matched then
      assert FirstMatchAt(tests, content, engine, i);
      Committed(tests[i].outcome)
    else
      assert FirstTimeoutAt(tests, content, engine, i);
      Aborted
  }

  // ---------------------------------------------------------------------------
  // The call

  /** `Heuristics.call(blob, candidates)`: a symbolic link gives `[]`; otherwise
      the first rule that applies to the blob's name runs its tests on the
      content, and a committed outcome is returned as its language list. No
      applicable rule, no matching test, or a timed-out search give `[]`. The
      candidates are not consulted. */
  function Call(rules: seq<Rule>, blob: Blob, candidates: seq<Candidate>, engine: Engine): (result: seq<LangName>)
    ensures blob.symlink ==> result == []
    ensures SelectRule(rules, blob.name) == |rules| ==> result == []
    ensures result != [] ==>
              && !blob.symlink
              && SelectRule(rules, blob.name) < |rules|
              && exists i :: FirstMatchAt(rules[SelectRule(rules, blob.name)].tests, blob.content, engine, i)
    ensures !blob.symlink && SelectRule(rules, blob.name) < |rules| ==>
              forall i :: FirstMatchAt(rules[SelectRule(rules, blob.name)].tests, blob.content, engine, i) ==>
                result == Languages(rules[SelectRule(rules, blob.name)].tests[i].outcome)
    ensures !blob.symlink && SelectRule(rules, blob.name) < |rules| &&
            (exists i :: FirstTimeoutAt(rules[SelectRule(rules, blob.name)].tests, blob.content, engine, i)) ==>
              result == []
  {
    if blob.symlink then []
    else
      var k := SelectRule(rules, blob.name);
      if k == |rules| then []
      else
        match Evaluate(rules[k].tests, blob.content, engine)
        case Committed(o) => Languages(o)
        case NoMatch => []
        case Aborted => []
  }

  /** Every language in a result is one the chosen rule can commit to; it
      need not be among the candidates. */
  lemma CallStaysWithinRule(rules: seq<Rule>, blob: Blob, candidates: seq<Candidate>, engine: Engine)
    ensures var result := Call(rules, blob, candidates, engine);
            result != [] ==>
              var k := SelectRule(rules, blob.name);
              k < |rules| && forall l :: l in result ==> l in OutcomeLanguages(rules[k].tests)
  {
    var result := Call(rules, blob, candidates, engine);
    if result != [] {
      var k := SelectRule(rules, blob.name);
      var i :| FirstMatchAt(rules[k].tests, blob.content, engine, i);
      OutcomeLanguagesCover(rules[k].tests, i);
    }
  }

  /** The candidate list never changes the result. */
  lemma CallIgnoresCandidates(rules: seq<Rule>, blob: Blob, c1: seq<Candidate>, c2: seq<Candidate>, engine: Engine)
    ensures Call(rules, blob, c1, engine) == Call(rules, blob, c2, engine)
  {
  }

  /** Blobs whose names differ only in letter case are treated alike. */
  lemma CallIgnoresNameCase(rules: seq<Rule>, a: Blob, b: Blob, candidates: seq<Candidate>, engine: Engine)
    requires Lower(a.name) == Lower(b.name)
    requires a.content == b.content && a.symlink == b.symlink
    ensures Call(rules, a, candidates, engine) == Call(rules, b, candidates, engine)
  {
    SelectionIgnoresCase(rules, a.name, b.name);
  }

  /** When every regular-expression search times out, a rule whose first test
      is a search yields `[]`, and the call does not fail. */
  lemma TimeoutGivesEmpty(rules: seq<Rule>, blob: Blob, candidates: seq<Candidate>, engine: Engine)
    requires forall source, text :: engine(source, text) == TimedOut
    requires SelectRule(rules, blob.name) < |rules|
    requires var tests := rules[SelectRule(rules, blob.name)].tests; |tests| > 0 && tests[0].pattern.Regex?
    ensures Call(rules, blob, candidates, engine) == []
  {
    var tests := rules[SelectRule(rules, blob.name)].tests;
    assert FirstTimeoutAt(tests, blob.content, engine, 0);
  }

  /** A name that no rule applies to yields `[]`, whatever the content and
      candidates (an empty candidate list included). */
  lemma NoRuleGivesEmpty(rules: seq<Rule>, blob: Blob, candidates: seq<Candidate>, engine: Engine)
    requires forall k :: 0 <= k < |rules| ==> !Selects(rules[k], blob.name)
    ensures Call(rules, blob, candidates, engine) == []
  {
  }
}

=== FILE: known_rules.dfy ===
/** The rules whose behaviour the test suite fixes independently of the
    text of their regular expressions: the manual-page family, `.h`, `.ml`
    and `.mod`. Each `Regex` source is a stand-in for the search the rule
    data spells out; only its identity matters here. */
module KnownRules {
  import opened Text
  import opened Heuristics

  /** Every suffix the manual-page tests route through one rule. */
  const ManpageExtensions: seq<string> :=
    [".1", ".1in", ".1m", ".1x", ".2", ".3", ".3in", ".3m", ".3p", ".3pm", ".3qt", ".3x",
     ".4", ".5", ".6", ".7", ".8", ".9", ".man", ".mdoc"]

  const ManpageMacros := "roff-manpage-macros"
  const RoffControlLines := "roff-control-lines"

  /** Manual pages: manpage macros, else generic roff requests, else no decision. */
  const Manpage := Rule(ManpageExtensions,
    [Test(Regex(ManpageMacros), One("Roff Manpage")),
     Test(Regex(RoffControlLines), One("Roff"))])

  const ObjectiveCSyntax := "objective-c-syntax"
  const CppSyntax := "cpp-syntax"

  /** C headers: Objective-C, else C++, else C by default. */
  const Header := Rule([".h"],
    [Test(Regex(ObjectiveCSyntax), One("Objective-C")),
     Test(Regex(CppSyntax), One("C++")),
     Test(Always, One("C"))])

  const OCamlSyntax := "ocaml-syntax"
  const StandardMLSyntax := "standard-ml-syntax"

  /** `.ml`: OCaml, else Standard ML, else no decision. */
  const Ml := Rule([".ml"],
    [Test(Regex(OCamlSyntax), One("OCaml")),
     Test(Regex(StandardMLSyntax), One("Standard ML"))])

  const Modula2Syntax := "modula-2-syntax"
  const NmodlSyntax := "nmodl-syntax"
  const XmlSyntax := "xml-syntax"

  /** The pair `.mod` leaves to the statistical classifier, in this order. */
  const ModPair: seq<LangName> := ["Linux Kernel Module", "AMPL"]

  /** `.mod`: three specific languages, else the unresolved pair. */
  const Mod := Rule([".mod"],
    [Test(Regex(Modula2Syntax), One("Modula-2")),
     Test(Regex(NmodlSyntax), One("NMODL")),
     Test(Regex(XmlSyntax), One("XML")),
     Test(Always, Group(ModPair))])

  const Table: seq<Rule> := [Manpage, Header, Ml, Mod]

  /** No extension of `rule` ends in the character `c`, so a lower-cased
      name ending in `c` never selects it. */
  lemma NotSelectedByLastChar(rule: Rule, prefix: string, suffix: string)
    requires IsLower(suffix) && |suffix| > 0
    requires forall e :: 0 <= e < |rule.extensions| ==>
               |rule.extensions[e]| > 0 && LowerChar(rule.extensions[e][|rule.extensions[e]| - 1]) != suffix[|suffix| - 1]
    ensures !Selects(rule, prefix + suffix)
  {
    LowerConcat(prefix, suffix);
    LowerOfLower(suffix);
    var name := Lower(prefix + suffix);
    assert name[|name| - 1] == suffix[|suffix| - 1];
    forall e | 0 <= e < |rule.extensions|
      ensures !EndsWithIgnoreCase(prefix + suffix, rule.extensions[e])
    {
      var ext := rule.extensions[e];
      if EndsWithIgnoreCase(prefix + suffix, ext) {
        EndsWithLast(name, Lower(ext));
        assert false;
      }
    }
  }

  /** `prefix + ext` selects a rule listing `ext`. */
  lemma SelectsListed(rule: Rule, e: nat, prefix: string)
    requires e < |rule.extensions|
    ensures Selects(rule, prefix + rule.extensions[e])
  {
    var ext := rule.extensions[e];
    assert (prefix + ext)[|prefix|..] == ext;
    EndsWithLowers(prefix + ext, ext);
  }

  lemma ManpageSelected(ext: string)
    requires ext in ManpageExtensions
    ensures SelectRule(Table, "man" + ext) == 0
  {
    var i :| 0 <= i < |ManpageExtensions| && ManpageExtensions[i] == ext;
    SelectsListed(Manpage, i, "man");
  }

  /** Every manual-page suffix sends `man<suffix>` through the manual-page
      rule, so all of them give the same three-way answer. */
  lemma ManpageFamily(ext: string, content: string, candidates: seq<Candidate>, engine: Engine)
    requires ext in ManpageExtensions
    ensures var result := Call(Table, Blob("man" + ext, content, false), candidates, engine);
            && (result == ["Roff Manpage"] <==> engine(ManpageMacros, content) == Matched)
            && (result == ["Roff"] <==>
                  engine(ManpageMacros, content) == Unmatched && engine(RoffControlLines, content) == Matched)
            && (result == [] <==>
                  engine(ManpageMacros, content) == TimedOut ||
                  (engine(ManpageMacros, content) == Unmatched && engine(RoffControlLines, content) != Matched))
  {
    ManpageSelected(ext);
    var tests := Manpage.tests;
    if engine(ManpageMacros, content) == Matched {
      assert FirstMatchAt(tests, content, engine, 0);
    } else if engine(ManpageMacros, content) == Unmatched && engine(RoffControlLines, content) == Matched {
      assert FirstMatchAt(tests, content, engine, 1);
    } else if engine(ManpageMacros, content) == TimedOut {
      assert FirstTimeoutAt(tests, content, engine, 0);
    } else if engine(RoffControlLines, content) == TimedOut {
      assert FirstTimeoutAt(tests, content, engine, 1);
    }
  }

  /** A `.h` file always gets a decision unless a search times out:
      Objective-C, else C++, else C. */
  lemma HeaderDefaultsToC(prefix: string, content: string, candidates: seq<Candidate>, engine: Engine)
    requires engine(ObjectiveCSyntax, content) != TimedOut && engine(CppSyntax, content) != TimedOut
    ensures var result := Call(Table, Blob(prefix + ".h", content, false), candidates, engine);
            && (result == ["Objective-C"] <==> engine(ObjectiveCSyntax, content) == Matched)
            && (result == ["C++"] <==>
                  engine(ObjectiveCSyntax, content) == Unmatched && engine(CppSyntax, content) == Matched)
            && (result == ["C"] <==>
                  engine(ObjectiveCSyntax, content) == Unmatched && engine(CppSyntax, content) == Unmatched)
            && result != []
  {
    NotSelectedByLastChar(Manpage, prefix, ".h");
    SelectsListed(Header, 0, prefix);
    assert SelectRule(Table, prefix + ".h") == 1;
    var tests := Header.tests;
    if engine(ObjectiveCSyntax, content) == Matched {
      assert FirstMatchAt(tests, content, engine, 0);
    } else if engine(CppSyntax, content) == Matched {
      assert FirstMatchAt(tests, content, engine, 1);
    } else {
      assert FirstMatchAt(tests, content, engine, 2);
    }
  }

  /** An `.ml` file is OCaml, Standard ML, or (when neither search holds) no
      decision: never any other language. */
  lemma MlDefersWhenAmbiguous(prefix: string, content: string, candidates: seq<Candidate>, engine: Engine)
    ensures var result := Call(Table, Blob(prefix + ".ml", content, false), candidates, engine);
            && (result == ["OCaml"] <==> engine(OCamlSyntax, content) == Matched)
            && (result == ["Standard ML"] <==>
                  engine(OCamlSyntax, content) == Unmatched && engine(StandardMLSyntax, content) == Matched)
            && (engine(OCamlSyntax, content) == Unmatched && engine(StandardMLSyntax, content) == Unmatched ==>
                  result == [])
            && (result == [] || result == ["OCaml"] || result == ["Standard ML"])
  {
    NotSelectedByLastChar(Manpage, prefix, ".ml");
    NotSelectedByLastChar(Header, prefix, ".ml");
    SelectsListed(Ml, 0, prefix);
    assert SelectRule(Table[2..], prefix + ".ml") == 0;
    assert SelectRule(Table[1..], prefix + ".ml") == 1;
    assert SelectRule(Table, prefix + ".ml") == 2;
    var tests := Ml.tests;
    if engine(OCamlSyntax, content) == Matched {
      assert FirstMatchAt(tests, content, engine, 0);
    } else if engine(OCamlSyntax, content) == Unmatched && engine(StandardMLSyntax, content) == Matched {
      assert FirstMatchAt(tests, content, engine, 1);
    } else if engine(OCamlSyntax, content) == TimedOut {
      assert FirstTimeoutAt(tests, content, engine, 0);
    } else if engine(StandardMLSyntax, content) == TimedOut {
      assert FirstTimeoutAt(tests, content, engine, 1);
    }
  }

  /** A `.mod` file that none of the three specific searches claims gets the
      pair, Linux Kernel Module first. */
  lemma ModYieldsPair(prefix: string, content: string, candidates: seq<Candidate>, engine: Engine)
    requires engine(Modula2Syntax, content) == Unmatched
    requires engine(NmodlSyntax, content) == Unmatched
    requires engine(XmlSyntax, content) == Unmatched
    ensures Call(Table, Blob(prefix + ".mod", content, false), candidates, engine) == ["Linux Kernel Module", "AMPL"]
  {
    NotSelectedByLastChar(Manpage, prefix, ".mod");
    NotSelectedByLastChar(Header, prefix, ".mod");
    NotSelectedByLastChar(Ml, prefix, ".mod");
    SelectsListed(Mod, 0, prefix);
    assert SelectRule(Table[3..], prefix + ".mod") == 0;
    assert SelectRule(Table[2..], prefix + ".mod") == 1;
    assert SelectRule(Table[1..], prefix + ".mod") == 2;
    assert SelectRule(Table, prefix + ".mod") == 3;
    assert FirstMatchAt(Mod.tests, content, engine, 3);
  }

  /** No rule of the table applies to `namespace.js`, so it yields `[]` even
      with no candidates at all. */
  lemma JavaScriptHasNoRule(content: string, engine: Engine)
    ensures Call(Table, Blob("namespace.js", content, false), [], engine) == []
  {
    var name := "namespace.js";
    assert name == "namespace" + ".js";
    NotSelectedByLastChar(Manpage, "namespace", ".js");
    NotSelectedByLastChar(Header, "namespace", ".js");
    NotSelectedByLastChar(Ml, "namespace", ".js");
    NotSelectedByLastChar(Mod, "namespace", ".js");
    assert SelectRule(Table[4..], name) == 0;
    assert SelectRule(Table[3..], name) == 1;
    assert SelectRule(Table[2..], name) == 2;
    assert SelectRule(Table[1..], name) == 3;
    assert SelectRule(Table, name) == 4;
  }

  /** `*.R` and `*.E` files take the same route as `*.r` and `*.e` files. */
  lemma UpperCaseSuffixesRouteAlike(rules: seq<Rule>, prefix: string, content: string,
                                    candidates: seq<Candidate>, engine: Engine)
    ensures Call(rules, Blob(prefix + ".R", content, false), candidates, engine)
         == Call(rules, Blob(prefix + ".r", content, false), candidates, engine)
    ensures Call(rules, Blob(prefix + ".E", content, false), candidates, engine)
         == Call(rules, Blob(prefix + ".e", content, false), candidates, engine)
  {
    LowerConcat(prefix, ".R");
    LowerConcat(prefix, ".r");
    LowerConcat(prefix, ".E");
    LowerConcat(prefix, ".e");
    assert Lower(".R") == ".r" == Lower(".r");
    assert Lower(".E") == ".e" == Lower(".e");
    CallIgnoresNameCase(rules, Blob(prefix + ".R", content, false), Blob(prefix + ".r", content, false), candidates, engine);
    CallIgnoresNameCase(rules, Blob(prefix + ".E", content, false), Blob(prefix + ".e", content, false), candidates, engine);
  }
}

=== FILE: oracle.dfy ===
/** The test suite's oracle, `assert_heuristics(hash, alt_name)`: how a hash
    of expected results to fixtures is turned into candidates and expected
    language lists, and when the assertion passes. The hash itself is a Ruby
    hash literal, so duplicate keys collapse. */
module Oracle {
  import opened Options
  import opened Text
  import opened Heuristics
  import KnownRules

  /** A key of the expectation hash: `nil`, an array of names, or one name. */
  datatype Key = NilKey | ArrayKey(names: seq<LangName>) | NameKey(name: LangName)

  /** One key with the fixtures filed under it (`Array(blobs)`). */
  datatype Entry = Entry(key: Key, blobs: seq<Blob>)

  /** The result a key asks for. */
  function Expected(key: Key): seq<LangName>
  {
    match key
    case NilKey => []
    case ArrayKey(names) => names
    case NameKey(name) => [name]
  }

  /** The key a test author writes for a given expected result. */
  function KeyFor(result: seq<LangName>): (k: Key)
    ensures Expected(k) == result
    ensures k.ArrayKey? <==> |result| >= 2
  {
    if result == [] then NilKey
    else if |result| == 1 then NameKey(result[0])
    else ArrayKey(result)
  }

  /** Reading a key back from its expected result recovers it exactly unless
      it is an array of fewer than two names, which reads back as `nil` or a
      single name. */
  lemma KeyRoundTrip(k: Key)
    ensures KeyFor(Expected(k)) == k <==> !(k.ArrayKey? && |k.names| < 2)
    ensures Expected(KeyFor(Expected(k))) == Expected(k)
  {
  }

  /** `Language[key]`: a name resolves to its language; `nil` and an array
      resolve to `nil`. */
  function Lookup(key: Key): Candidate
  {
    if key.NameKey? then Some(key.name) else None
  }

  /** `hash.keys.map { |l| Language[l] }`. */
  function Candidates(hash: seq<Entry>): seq<Candidate>
  {
    seq(|hash|, i requires 0 <= i < |hash| => Lookup(hash[i].key))
  }

  /** `file_blob(name, alt_name)`: an alternative name replaces the blob's
      own one, so that it is routed through another rule. */
  function WithAltName(b: Blob, alt: Option<string>): Blob
  {
    if alt.Some? then b.(name := alt.value) else b
  }

  // ---------------------------------------------------------------------------
  // Ruby hash literals

  predicate DistinctKeys(h: seq<Entry>)
  {
    forall i, j :: 0 <= i < j < |h| ==> h[i].key != h[j].key
  }

  /** Position of the entry with key `k`, or `|h|`. */
  function IndexOfKey(h: seq<Entry>, k: Key): (i: nat)
    ensures i <= |h|
    ensures i < |h| ==> h[i].key == k
    ensures forall j :: 0 <= j < i ==> h[j].key != k
  {
    if h == [] then 0
    else if h[0].key == k then 0
    else 1 + IndexOfKey(h[1..], k)
  }

  /** `h[e.key] = e.blobs`: an existing key keeps its place and takes the new
      value; a new key goes last. */
  function Store(h: seq<Entry>, e: Entry): seq<Entry>
  {
    var i := IndexOfKey(h, e.key);
    if i < |h| then h[i := e] else h + [e]
  }

  /** The value the last pair with key `k` gives, if any. */
  function LastValue(pairs: seq<Entry>, k: Key): Option<seq<Blob>>
  {
    if pairs == [] then None
    else if pairs[|pairs| - 1].key == k then Some(pairs[|pairs| - 1].blobs)
    else LastValue(pairs[..|pairs| - 1], k)
  }

  /** Storing an entry keeps every key already present and adds its own. */
  lemma StoreKeepsKeys(h: seq<Entry>, e: Entry, k: Key)
    requires IndexOfKey(h, k) < |h| || k == e.key
    ensures IndexOfKey(Store(h, e), k) < |Store(h, e)|
  {
    var s := Store(h, e);
    var w := IndexOfKey(h, k);
    if w < |h| {
      assert s[w].key == k;
    } else {
      assert s[IndexOfKey(h, e.key)].key == k;
    }
  }

  /** Storing an entry into a hash with distinct keys keeps them distinct. */
  lemma StoreKeepsDistinct(h: seq<Entry>, e: Entry)
    requires DistinctKeys(h)
    ensures DistinctKeys(Store(h, e)) && |Store(h, e)| <= |h| + 1
  {
  }

  /** If every entry of `h` holds the last value `init` gives its key, then
      after storing `e` every entry holds the last value `init + [e]` gives. */
  lemma StoreKeepsLastValues(init: seq<Entry>, h: seq<Entry>, e: Entry)
    requires DistinctKeys(h)
    requires forall j :: 0 <= j < |h| ==> LastValue(init, h[j].key) == Some(h[j].blobs)
    ensures forall j :: 0 <= j < |Store(h, e)| ==> LastValue(init + [e], Store(h, e)[j].key) == Some(Store(h, e)[j].blobs)
  {
    var pairs, s := init + [e], Store(h, e);
    assert pairs[..|pairs| - 1] == init;
    forall j | 0 <= j < |s|
      ensures LastValue(pairs, s[j].key) == Some(s[j].blobs)
    {
      if s[j].key != e.key {
        assert s[j] == h[j];
      }
    }
  }

  /** The hash a literal `{k1 => v1, k2 => v2, ...}` builds: one entry per
      distinct key, holding the value of the key's last pair. */
  function HashLiteral(pairs: seq<Entry>): (h: seq<Entry>)
    ensures DistinctKeys(h)
    ensures |h| <= |pairs|
    ensures forall i :: 0 <= i < |pairs| ==> IndexOfKey(h, pairs[i].key) < |h|
    ensures forall j :: 0 <= j < |h| ==> LastValue(pairs, h[j].key) == Some(h[j].blobs)
  {
    if pairs == [] then []
    else
      var init := pairs[..|pairs| - 1];
      var h0 := HashLiteral(init);
      var e := pairs[|pairs| - 1];
      assert pairs == init + [e];
      StoreKeepsDistinct(h0, e);
      StoreKeepsLastValues(init, h0, e);
      var h := Store(h0, e);
      assert forall i :: 0 <= i < |init| ==> init[i] == pairs[i];
      assert forall i :: 0 <= i < |pairs| ==> IndexOfKey(h, pairs[i].key) < |h| by {
        forall i | 0 <= i < |pairs|
          ensures IndexOfKey(h, pairs[i].key) < |h|
        {
          StoreKeepsKeys(h0, e, pairs[i].key);
        }
      }
      h
  }

  // ---------------------------------------------------------------------------
  // assert_heuristics

  /** How an `assert_heuristics` call ends: every assertion passes, a key
      has no fixture, or a fixture gets a result other than its key's. */
  datatype Check = Pass | TooFewBlobs(key: Key) | Mismatch(blob: Blob, expected: seq<LangName>, actual: seq<LangName>)

  /** `Heuristics.call` as the oracle sees it. */
  type Heuristic = (Blob, seq<Candidate>) -> seq<LangName>

  predicate BlobAgrees(key: Key, b: Blob, candidates: seq<Candidate>, alt: Option<string>, call: Heuristic)
  {
    call(WithAltName(b, alt), candidates) == Expected(key)
  }

  /** What the test promises for one entry: at least one fixture, and every
      fixture gets exactly the key's expected result. */
  predicate EntryAgrees(e: Entry, candidates: seq<Candidate>, alt: Option<string>, call: Heuristic)
  {
    && |e.blobs| >= 1
    && forall j :: 0 <= j < |e.blobs| ==> BlobAgrees(e.key, e.blobs[j], candidates, alt, call)
  }

  /** `blobs.each { ... assert_equal expected, result }`. */
  function CheckBlobs(key: Key, blobs: seq<Blob>, candidates: seq<Candidate>, alt: Option<string>, call: Heuristic): (c: Check)
    ensures c.Pass? || c.Mismatch?
    ensures c.Pass? <==> forall j :: 0 <= j < |blobs| ==> BlobAgrees(key, blobs[j], candidates, alt, call)
    ensures c.Mismatch? ==>
              && c.blob in blobs
              && c.expected == Expected(key)
              && c.actual == call(WithAltName(c.blob, alt), candidates)
              && c.actual != c.expected
  {
    if blobs == [] then Pass
    else
      var actual := call(WithAltName(blobs[0], alt), candidates);
      if actual != Expected(key) then Mismatch(blobs[0], Expected(key), actual)
      else
        var rest := CheckBlobs(key, blobs[1..], candidates, alt, call);
        assert forall j :: 1 <= j < |blobs| ==> blobs[j] == blobs[1..][j - 1];
        rest
  }

  /** Fixture `j` is the first one whose result differs from the key's, and
      `c` is the failure `assert_equal` reports for it. */
  predicate FirstMismatchAt(key: Key, blobs: seq<Blob>, candidates: seq<Candidate>, alt: Option<string>, call: Heuristic,
                            j: int, c: Check)
  {
    && 0 <= j < |blobs|
    && !BlobAgrees(key, blobs[j], candidates, alt, call)
    && c == Mismatch(blobs[j], Expected(key), call(WithAltName(blobs[j], alt), candidates))
    && forall j' :: 0 <= j' < j ==> BlobAgrees(key, blobs[j'], candidates, alt, call)
  }

  /** The failure `CheckBlobs` reports is the first failed assertion. */
  lemma {:induction false} CheckBlobsStopsAtFirst(key: Key, blobs: seq<Blob>, candidates: seq<Candidate>, alt: Option<string>,
                                                  call: Heuristic)
    ensures var c := CheckBlobs(key, blobs, candidates, alt, call);
            c.Mismatch? ==> exists j :: FirstMismatchAt(key, blobs, candidates, alt, call, j, c)
  {
    var c := CheckBlobs(key, blobs, candidates, alt, call);
    if blobs != [] && c.Mismatch? {
      if !BlobAgrees(key, blobs[0], candidates, alt, call) {
        assert FirstMismatchAt(key, blobs, candidates, alt, call, 0, c);
      } else {
        CheckBlobsStopsAtFirst(key, blobs[1..], candidates, alt, call);
        var j :| FirstMismatchAt(key, blobs[1..], candidates, alt, call, j, c);
        assert FirstMismatchAt(key, blobs, candidates, alt, call, j + 1, c);
      }
    }
  }

  /** `hash.each do |language, blobs| ... end`, stopping at the first failed
      assertion. */
  function CheckEntries(entries: seq<Entry>, candidates: seq<Candidate>, alt: Option<string>, call: Heuristic): (c: Check)
    ensures c.Pass? <==> forall i :: 0 <= i < |entries| ==> EntryAgrees(entries[i], candidates, alt, call)
    ensures c.TooFewBlobs? ==> exists i :: 0 <= i < |entries| && entries[i].key == c.key && entries[i].blobs == []
    ensures c.Mismatch? ==>
              && c.actual == call(WithAltName(c.blob, alt), candidates)
              && c.actual != c.expected
              && exists i :: 0 <= i < |entries| && c.blob in entries[i].blobs && c.expected == Expected(entries[i].key)
  {
    if entries == [] then Pass
    else if |entries[0].blobs| < 1 then TooFewBlobs(entries[0].key)
    else
      var first := CheckBlobs(entries[0].key, entries[0].blobs, candidates, alt, call);
      if !first.Pass? then first
      else
        var rest := CheckEntries(entries[1..], candidates, alt, call);
        assert forall i :: 1 <= i < |entries| ==> entries[i] == entries[1..][i - 1];
        assert forall i :: 0 <= i < |entries[1..]| ==> entries[1..][i] == entries[i + 1];
        rest
  }

  /** Entry `i` is the first one that breaks its promise, and `c` is the first
      failed assertion inside it: the blob count, else its first mismatching
      fixture. */
  predicate FirstEntryFailingAt(entries: seq<Entry>, candidates: seq<Candidate>, alt: Option<string>, call: Heuristic,
                                i: int, c: Check)
  {
    && 0 <= i < |entries|
    && !EntryAgrees(entries[i], candidates, alt, call)
    && (forall i' :: 0 <= i' < i ==> EntryAgrees(entries[i'], candidates, alt, call))
    && if entries[i].blobs == [] then c == TooFewBlobs(entries[i].key)
       else exists j :: 0 <= j < |entries[i].blobs| && FirstMismatchAt(entries[i].key, entries[i].blobs, candidates, alt, call, j, c)
  }

  /** A first failure in the tail is the first failure of the whole list
      when the head entry agrees. */
  lemma EntryFailureShifts(entries: seq<Entry>, candidates: seq<Candidate>, alt: Option<string>, call: Heuristic,
                           i: int, c: Check)
    requires entries != [] && EntryAgrees(entries[0], candidates, alt, call)
    requires FirstEntryFailingAt(entries[1..], candidates, alt, call, i, c)
    ensures FirstEntryFailingAt(entries, candidates, alt, call, i + 1, c)
  {
    assert entries[1..][i] == entries[i + 1];
    assert forall i' :: 1 <= i' <= i ==> entries[1..][i' - 1] == entries[i'];
  }

  /** The failure `CheckEntries` reports is the first failed assertion, in
      hash order. */
  lemma {:induction false} CheckEntriesStopsAtFirst(entries: seq<Entry>, candidates: seq<Candidate>, alt: Option<string>,
                                                    call: Heuristic)
    ensures var c := CheckEntries(entries, candidates, alt, call);
            !c.Pass? ==> exists i :: FirstEntryFailingAt(entries, candidates, alt, call, i, c)
  {
    var c := CheckEntries(entries, candidates, alt, call);
    if entries != [] && !c.Pass? {
      var e := entries[0];
      var first := CheckBlobs(e.key, e.blobs, candidates, alt, call);
      if |e.blobs| < 1 {
        assert FirstEntryFailingAt(entries, candidates, alt, call, 0, c);
      } else if !first.Pass? {
        CheckBlobsStopsAtFirst(e.key, e.blobs, candidates, alt, call);
        var j :| FirstMismatchAt(e.key, e.blobs, candidates, alt, call, j, first);
        assert FirstEntryFailingAt(entries, candidates, alt, call, 0, c);
      } else {
        CheckEntriesStopsAtFirst(entries[1..], candidates, alt, call);
        var i :| FirstEntryFailingAt(entries[1..], candidates, alt, call, i, c);
        EntryFailureShifts(entries, candidates, alt, call, i, c);
      }
    }
  }

  /** `assert_heuristics(hash, alt_name)` with `Heuristics.call` as `call`:
      the candidates are the hash's keys resolved as languages. */
  function AssertHeuristics(hash: seq<Entry>, alt: Option<string>, call: Heuristic): (c: Check)
    ensures c.Pass? <==> forall i :: 0 <= i < |hash| ==> EntryAgrees(hash[i], Candidates(hash), alt, call)
    ensures c.TooFewBlobs? ==> exists i :: 0 <= i < |hash| && hash[i].key == c.key && hash[i].blobs == []
    ensures c.Mismatch? ==>
              && c.actual == call(WithAltName(c.blob, alt), Candidates(hash))
              && c.actual != c.expected
              && exists i :: 0 <= i < |hash| && c.blob in hash[i].blobs && c.expected == Expected(hash[i].key)
    ensures !c.Pass? ==> exists i :: FirstEntryFailingAt(hash, Candidates(hash), alt, call, i, c)
  {
    CheckEntriesStopsAtFirst(hash, Candidates(hash), alt, call);
    CheckEntries(hash, Candidates(hash), alt, call)
  }

  // ---------------------------------------------------------------------------
  // The `.mod` expectations

  const ModPairKey := ArrayKey(KnownRules.ModPair)

  /** The literal of the `.mod` test, with the pair key written twice. */
  function ModLiteral(modula2: seq<Blob>, nmodl: seq<Blob>, xml: seq<Blob>, lkm: seq<Blob>, ampl: seq<Blob>): seq<Entry>
  {
    [Entry(NameKey("Modula-2"), modula2), Entry(NameKey("NMODL"), nmodl), Entry(NameKey("XML"), xml),
     Entry(ModPairKey, lkm), Entry(ModPairKey, ampl)]
  }

  /** The hash the `.mod` literal builds keeps only the second value of the
      duplicated pair key: the Linux Kernel Module fixtures are never handed
      to the oracle. The pair itself is not among the candidates. */
  lemma ModLiteralDropsKernelFixtures(modula2: seq<Blob>, nmodl: seq<Blob>, xml: seq<Blob>, lkm: seq<Blob>, ampl: seq<Blob>)
    ensures HashLiteral(ModLiteral(modula2, nmodl, xml, lkm, ampl))
         == [Entry(NameKey("Modula-2"), modula2), Entry(NameKey("NMODL"), nmodl), Entry(NameKey("XML"), xml),
             Entry(ModPairKey, ampl)]
    ensures Candidates(HashLiteral(ModLiteral(modula2, nmodl, xml, lkm, ampl)))
         == [Some("Modula-2"), Some("NMODL"), Some("XML"), None]
  {
    var pairs := ModLiteral(modula2, nmodl, xml, lkm, ampl);
    var e0, e1, e2 := pairs[0], pairs[1], pairs[2];
    assert pairs[..1] == [e0];
    assert HashLiteral(pairs[..1]) == [e0] by { assert pairs[..1][..0] == []; }
    assert pairs[..2][..1] == pairs[..1];
    assert HashLiteral(pairs[..2]) == [e0, e1];
    assert pairs[..3][..2] == pairs[..2];
    assert HashLiteral(pairs[..3]) == [e0, e1, e2];
    assert pairs[..4][..3] == pairs[..3];
    assert HashLiteral(pairs[..4]) == [e0, e1, e2, Entry(ModPairKey, lkm)];
    assert pairs[..4] == pairs[..|pairs| - 1];
    assert IndexOfKey([e0, e1, e2, Entry(ModPairKey, lkm)], ModPairKey) == 3;
  }

  /** A `.mod` fixture that none of the three specific searches claims. */
  predicate FallsToPair(b: Blob, engine: Engine)
  {
    && !b.symlink
    && EndsWith(b.name, ".mod")
    && engine(KnownRules.Modula2Syntax, b.content) == Unmatched
    && engine(KnownRules.NmodlSyntax, b.content) == Unmatched
    && engine(KnownRules.XmlSyntax, b.content) == Unmatched
  }

  lemma FallsToPairGivesPair(b: Blob, candidates: seq<Candidate>, engine: Engine)
    requires FallsToPair(b, engine)
    ensures Call(KnownRules.Table, b, candidates, engine) == KnownRules.ModPair
  {
    var prefix := b.name[..|b.name| - 4];
    assert b.name == prefix + ".mod";
    KnownRules.ModYieldsPair(prefix, b.content, candidates, engine);
    assert b == Blob(prefix + ".mod", b.content, false);
  }

  /** As written, the `.mod` assertion passes on its AMPL fixtures: each gets
      the pair, in order, although neither language is a candidate. */
  lemma ModAssertionChecksAmplOnly(modula2: seq<Blob>, nmodl: seq<Blob>, xml: seq<Blob>, lkm: seq<Blob>, ampl: seq<Blob>,
                                   engine: Engine)
    requires |ampl| >= 1
    requires forall j :: 0 <= j < |ampl| ==> FallsToPair(ampl[j], engine)
    ensures var hash := HashLiteral(ModLiteral(modula2, nmodl, xml, lkm, ampl));
            var call := (b, c) => Call(KnownRules.Table, b, c, engine);
            && |hash| == 4
            && EntryAgrees(hash[3], Candidates(hash), None, call)
            && Some("Linux Kernel Module") !in Candidates(hash)
            && Some("AMPL") !in Candidates(hash)
  {
    ModLiteralDropsKernelFixtures(modula2, nmodl, xml, lkm, ampl);
    var hash := HashLiteral(ModLiteral(modula2, nmodl, xml, lkm, ampl));
    forall j | 0 <= j < |ampl|
      ensures Call(KnownRules.Table, WithAltName(ampl[j], None), Candidates(hash), engine) == Expected(ModPairKey)
    {
      FallsToPairGivesPair(ampl[j], Candidates(hash), engine);
    }
  }

  /** The `.mod` literal with the pair written once, over both fixture groups. */
  function MergedModLiteral(modula2: seq<Blob>, nmodl: seq<Blob>, xml: seq<Blob>, lkm: seq<Blob>, ampl: seq<Blob>): seq<Entry>
  {
    [Entry(NameKey("Modula-2"), modula2), Entry(NameKey("NMODL"), nmodl), Entry(NameKey("XML"), xml),
     Entry(ModPairKey, lkm + ampl)]
  }

  lemma MergedModHash(modula2: seq<Blob>, nmodl: seq<Blob>, xml: seq<Blob>, lkm: seq<Blob>, ampl: seq<Blob>)
    ensures HashLiteral(MergedModLiteral(modula2, nmodl, xml, lkm, ampl)) == MergedModLiteral(modula2, nmodl, xml, lkm, ampl)
  {
    var pairs := MergedModLiteral(modula2, nmodl, xml, lkm, ampl);
    var e0, e1, e2, e3 := pairs[0], pairs[1], pairs[2], pairs[3];
    assert pairs[..1] == [e0];
    assert HashLiteral(pairs[..1]) == [e0] by { assert pairs[..1][..0] == []; }
    assert pairs[..2][..1] == pairs[..1];
    assert HashLiteral(pairs[..2]) == [e0, e1];
    assert pairs[..3][..2] == pairs[..2];
    assert HashLiteral(pairs[..3]) == [e0, e1, e2];
    assert pairs[..3] == pairs[..|pairs| - 1];
  }

  /** With the pair key written once, every Linux Kernel Module fixture as
      well as every AMPL fixture is checked, and all of them get the pair. */
  lemma MergedModLiteralChecksBoth(modula2: seq<Blob>, nmodl: seq<Blob>, xml: seq<Blob>, lkm: seq<Blob>, ampl: seq<Blob>,
                                   engine: Engine)
    requires |lkm + ampl| >= 1
    requires forall j :: 0 <= j < |lkm| ==> FallsToPair(lkm[j], engine)
    requires forall j :: 0 <= j < |ampl| ==> FallsToPair(ampl[j], engine)
    ensures var hash := HashLiteral(MergedModLiteral(modula2, nmodl, xml, lkm, ampl));
            var call := (b, c) => Call(KnownRules.Table, b, c, engine);
            && |hash| == 4
            && hash[3] == Entry(ModPairKey, lkm + ampl)
            && EntryAgrees(hash[3], Candidates(hash), None, call)
  {
    MergedModHash(modula2, nmodl, xml, lkm, ampl);
    var hash := HashLiteral(MergedModLiteral(modula2, nmodl, xml, lkm, ampl));
    var all := lkm + ampl;
    forall j | 0 <= j < |all|
      ensures Call(KnownRules.Table, WithAltName(all[j], None), Candidates(hash), engine) == Expected(ModPairKey)
    {
      if j < |lkm| {
        FallsToPairGivesPair(lkm[j], Candidates(hash), engine);
      } else {
        FallsToPairGivesPair(ampl[j - |lkm|], Candidates(hash), engine);
      }
    }
  }
}

=== FILE: text.dfy ===
/** Small string helpers shared by rule selection and the extension validator:
    ASCII lower-casing and suffix tests, with the facts about them the rest of
    the model relies on. */
module Text {

  /** Lower-cases one ASCII letter; every other character is left alone. */
  function LowerChar(c: char): char
  {
    if 'A' <= c <= 'Z' then (c as int + 32) as char else c
  }

  /** `s.downcase`, restricted to ASCII letters. */
  function Lower(s: string): string
  {
    seq(|s|, i requires 0 <= i < |s| => LowerChar(s[i]))
  }

  /** `s.end_with?(suffix)`. */
  predicate EndsWith(s: string, suffix: string)
  {
    |suffix| <= |s| && s[|s| - |suffix|..] == suffix
  }

  /** `s.downcase.end_with?(suffix.downcase)`. */
  predicate EndsWithIgnoreCase(s: string, suffix: string)
  {
    EndsWith(Lower(s), Lower(suffix))
  }

  /** A string without upper-case ASCII letters. */
  predicate IsLower(s: string)
  {
    forall i :: 0 <= i < |s| ==> !('A' <= s[i] <= 'Z')
  }

  lemma LowerOfLower(s: string)
    ensures IsLower(Lower(s))
    ensures Lower(s) == s <==> IsLower(s)
  {
    if IsLower(s) {
      assert forall i :: 0 <= i < |s| ==> Lower(s)[i] == s[i];
    } else {
      var i :| 0 <= i < |s| && 'A' <= s[i] <= 'Z';
      assert Lower(s)[i] != s[i];
    }
  }

  lemma LowerConcat(a: string, b: string)
    ensures Lower(a + b) == Lower(a) + Lower(b)
  {
    assert forall i :: 0 <= i < |a + b| ==> Lower(a + b)[i] == (Lower(a) + Lower(b))[i];
  }

  /** Lower-casing commutes with taking a suffix, so a case-sensitive suffix is
      also a case-insensitive one. */
  lemma EndsWithLowers(s: string, suffix: string)
    requires EndsWith(s, suffix)
    ensures EndsWithIgnoreCase(s, suffix)
  {
    var n := |s| - |suffix|;
    assert Lower(s)[n..] == Lower(suffix) by {
      assert forall i :: 0 <= i < |suffix| ==> Lower(s)[n..][i] == LowerChar(s[n + i]) == Lower(suffix)[i];
    }
  }

  /** A non-empty suffix shares the last character of the string. */
  lemma EndsWithLast(s: string, suffix: string)
    requires EndsWith(s, suffix) && |suffix| > 0
    ensures s[|s| - 1] == suffix[|suffix| - 1]
  {
    assert s[|s| - |suffix|..][|suffix| - 1] == s[|s| - 1];
  }

  /** Whether a name matches a suffix case-insensitively depends only on the
      lower-cased name: `X.R` and `x.r` select the same things. */
  lemma IgnoreCaseDependsOnLower(a: string, b: string, suffix: string)
    requires Lower(a) == Lower(b)
    ensures EndsWithIgnoreCase(a, suffix) <==> EndsWithIgnoreCase(b, suffix)
  {
  }
}

module Options {
  datatype Option<+T> = None | Some(value: T)
}

=== FILE: validator.dfy ===
/** The check that every extension a rule is keyed on is declared by every
    language the rule can resolve to, either as one of the language's
    extensions or as a case-insensitive suffix of one of its file names.

    The check is modelled twice: as written, where the file-name test is a
    `select` whose array result Ruby always treats as true, and as intended,
    where that test asks whether any file name ends with the extension. */
module Validator {
  import opened Text
  import opened Heuristics

  /** What the registry declares about a language. */
  datatype Language = Language(name: LangName, extensions: seq<string>, filenames: seq<string>)

  type Registry = map<LangName, Language>

  /** The Ruby values the listing test can produce. */
  datatype Value = Nil | False | True | Array(items: seq<string>)

  /** Ruby truthiness: everything but `nil` and `false` is true. */
  predicate Truthy(v: Value)
  {
    !v.Nil? && !v.False?
  }

  /** `filenames.select { |n| n.downcase.end_with? ext.downcase }`. */
  function SelectSuffixed(filenames: seq<string>, ext: string): (r: seq<string>)
    ensures |r| <= |filenames|
    ensures forall n :: n in r <==> n in filenames && EndsWithIgnoreCase(n, ext)
  {
    if filenames == [] then []
    else
      var rest := SelectSuffixed(filenames[1..], ext);
      assert forall n :: n in filenames <==> n == filenames[0] || n in filenames[1..];
      if EndsWithIgnoreCase(filenames[0], ext) then [filenames[0]] + rest else rest
  }

  /** `lang.extensions.include?(ext) or lang.filenames.select {...}`. */
  function ListedAsWritten(lang: Language, ext: string): Value
  {
    if ext in lang.extensions then True else Array(SelectSuffixed(lang.filenames, ext))
  }

  /** The intended test: the extension is declared, or some file name ends
      with it regardless of case. */
  predicate Listed(lang: Language, ext: string)
  {
    || ext in lang.extensions
    || exists i :: 0 <= i < |lang.filenames| && EndsWithIgnoreCase(lang.filenames[i], ext)
  }

  datatype Reading = AsWritten | Intended

  /** Whether the `reject` block keeps `ext` out of the unlisted ones. */
  predicate Accepts(reading: Reading, lang: Language, ext: string)
  {
    match reading
    case AsWritten => Truthy(ListedAsWritten(lang, ext))
    case Intended => Listed(lang, ext)
  }

  /** `ext` is the first of `exts`, in rule order, that the language does not
      account for: what `unlisted.first` reports. */
  predicate FirstUnlistedAt(reading: Reading, exts: seq<string>, lang: Language, ext: string)
  {
    exists e :: 0 <= e < |exts| && exts[e] == ext && !Accepts(reading, lang, exts[e])
                && forall e' :: 0 <= e' < e ==> Accepts(reading, lang, exts[e'])
  }

  /** `rule.extensions.reject { |ext| ... }`: the extensions the language does
      not account for, in rule order. */
  function Unlisted(reading: Reading, exts: seq<string>, lang: Language): (r: seq<string>)
    ensures |r| <= |exts|
    ensures forall e :: e in r <==> e in exts && !Accepts(reading, lang, e)
    ensures r != [] ==> FirstUnlistedAt(reading, exts, lang, r[0])
  {
    if exts == [] then []
    else
      var rest := Unlisted(reading, exts[1..], lang);
      assert forall e :: e in exts <==> e == exts[0] || e in exts[1..];
      if Accepts(reading, lang, exts[0]) then rest else [exts[0]] + rest
  }

  /** How the check ends: no finding, the first extension missing from a
      language (`unlisted.first`), or a rule naming a language the registry
      does not have. */
  datatype Report = Valid | NotAssigned(ext: string, language: LangName) | UnknownLanguage(name: LangName)

  /** `rule.languages.each do |lang| ... end` for one rule. */
  function CheckLanguages(reading: Reading, exts: seq<string>, names: seq<LangName>, registry: Registry): (r: Report)
    ensures r.NotAssigned? ==> r.language in names && r.language in registry && r.ext in exts
                                && !Accepts(reading, registry[r.language], r.ext)
    ensures r.NotAssigned? ==> r.language in registry && FirstUnlistedAt(reading, exts, registry[r.language], r.ext)
    ensures r.UnknownLanguage? ==> r.name in names && r.name !in registry
    ensures !r.Valid? ==> exists m :: 0 <= m < |names|
                            && (r.NotAssigned? ==> names[m] == r.language)
                            && (r.UnknownLanguage? ==> names[m] == r.name)
                            && forall m' :: 0 <= m' < m ==>
                                 names[m'] in registry && forall e :: 0 <= e < |exts| ==> Accepts(reading, registry[names[m']], exts[e])
    ensures r.Valid? <==> forall m :: 0 <= m < |names| ==>
                            names[m] in registry && forall e :: 0 <= e < |exts| ==> Accepts(reading, registry[names[m]], exts[e])
  {
    if names == [] then Valid
    else if names[0] !in registry then UnknownLanguage(names[0])
    else
      var missing := Unlisted(reading, exts, registry[names[0]]);
      if missing != [] then
        assert missing[0] in missing;
        NotAssigned(missing[0], names[0])
      else
        var rest := CheckLanguages(reading, exts, names[1..], registry);
        assert forall m :: 1 <= m < |names| ==> names[m] == names[1..][m - 1];
        assert forall m :: 0 <= m < |names[1..]| ==> names[1..][m] == names[m + 1];
        assert forall e :: 0 <= e < |exts| ==> exts[e] in exts;
        rest
  }

  /** All extensions of a rule are accepted for all languages it resolves to. */
  predicate RuleListed(reading: Reading, rule: Rule, registry: Registry)
  {
    CheckLanguages(reading, rule.extensions, OutcomeLanguages(rule.tests), registry).Valid?
  }

  /** `Heuristics.all.all? do |rule| ... end`: the first finding, rule by rule. */
  function Validate(reading: Reading, rules: seq<Rule>, registry: Registry): (r: Report)
    ensures r.Valid? <==> forall k :: 0 <= k < |rules| ==> RuleListed(reading, rules[k], registry)
    ensures r.NotAssigned? ==> r.language in registry && !Accepts(reading, registry[r.language], r.ext)
    ensures r.NotAssigned? ==> exists k :: 0 <= k < |rules| && r.ext in rules[k].extensions
                                  && r.language in OutcomeLanguages(rules[k].tests)
                                  && FirstUnlistedAt(reading, rules[k].extensions, registry[r.language], r.ext)
  {
    if rules == [] then Valid
    else
      var first := CheckLanguages(reading, rules[0].extensions, OutcomeLanguages(rules[0].tests), registry);
      if !first.Valid? then first
      else
        var rest := Validate(reading, rules[1..], registry);
        assert forall k :: 1 <= k < |rules| ==> rules[k] == rules[1..][k - 1];
        rest
  }

  /** Rule `k` is the first rule that fails, and `r` is its report. */
  predicate FirstFailingRuleAt(reading: Reading, rules: seq<Rule>, registry: Registry, k: int, r: Report)
  {
    && 0 <= k < |rules|
    && r == CheckLanguages(reading, rules[k].extensions, OutcomeLanguages(rules[k].tests), registry)
    && !r.Valid?
    && forall k' :: 0 <= k' < k ==> RuleListed(reading, rules[k'], registry)
  }

  /** The report of `Validate` is the first failed assertion: that of the
      first failing rule, itself about that rule's first failing language. */
  lemma {:induction false} ValidateStopsAtFirst(reading: Reading, rules: seq<Rule>, registry: Registry)
    ensures var r := Validate(reading, rules, registry);
            !r.Valid? ==> exists k :: FirstFailingRuleAt(reading, rules, registry, k, r)
  {
    var r := Validate(reading, rules, registry);
    if rules != [] && !r.Valid? {
      if !RuleListed(reading, rules[0], registry) {
        assert FirstFailingRuleAt(reading, rules, registry, 0, r);
      } else {
        ValidateStopsAtFirst(reading, rules[1..], registry);
        var k :| FirstFailingRuleAt(reading, rules[1..], registry, k, r);
        assert forall k' :: 1 <= k' <= k ==> rules[1..][k' - 1] == rules[k'];
        assert FirstFailingRuleAt(reading, rules, registry, k + 1, r);
      }
    }
  }

  // ---------------------------------------------------------------------------
  // As written, the check cannot fail on a missing extension

  lemma AsWrittenAcceptsEveryExtension(lang: Language, ext: string)
    ensures Accepts(AsWritten, lang, ext)
  {
  }

  lemma {:induction false} AsWrittenNothingUnlisted(exts: seq<string>, lang: Language)
    ensures Unlisted(AsWritten, exts, lang) == []
  {
    if exts != [] {
      AsWrittenNothingUnlisted(exts[1..], lang);
    }
  }

  /** As written, the check never reports a missing extension: its only
      possible finding is an unknown language. */
  lemma AsWrittenNeverReportsUnlisted(rules: seq<Rule>, registry: Registry)
    ensures !Validate(AsWritten, rules, registry).NotAssigned?
  {
    var r := Validate(AsWritten, rules, registry);
    if r.NotAssigned? {
      AsWrittenAcceptsEveryExtension(registry[r.language], r.ext);
    }
  }

  /** An input that shows the difference: a rule keyed on `.foo` for a
      language that declares only `.x`. As written the check passes; as
      intended it reports `.foo`. */
  lemma VacuousCounterexample()
    ensures var rules := [Rule([".foo"], [Test(Always, One("X"))])];
            var registry := map["X" := Language("X", [".x"], ["Xfile"])];
            && Validate(AsWritten, rules, registry) == Valid
            && Validate(Intended, rules, registry) == NotAssigned(".foo", "X")
  {
    var rules := [Rule([".foo"], [Test(Always, One("X"))])];
    var lang := Language("X", [".x"], ["Xfile"]);
    var registry := map["X" := lang];
    assert OutcomeLanguages(rules[0].tests) == ["X"];
    assert !EndsWithIgnoreCase("Xfile", ".foo") by {
      assert Lower("Xfile")[1..] == "file";
      assert Lower(".foo") == ".foo";
    }
    assert !Listed(lang, ".foo");
    assert Unlisted(Intended, [".foo"], lang) == [".foo"];
    assert Unlisted(AsWritten, [".foo"], lang) == [] by { AsWrittenNothingUnlisted([".foo"], lang); }
    assert rules[1..] == [];
  }

  // ---------------------------------------------------------------------------
  // As intended, the check is sound and complete

  /** Every extension of the rule is declared by, or a case-insensitive
      file-name suffix of, every language the rule can resolve to. */
  predicate RuleDeclared(rule: Rule, registry: Registry)
  {
    forall m :: 0 <= m < |OutcomeLanguages(rule.tests)| ==>
      && OutcomeLanguages(rule.tests)[m] in registry
      && forall e :: 0 <= e < |rule.extensions| ==>
           Listed(registry[OutcomeLanguages(rule.tests)[m]], rule.extensions[e])
  }

  /** The intended check passes exactly when every rule is declared by the
      languages it can resolve to, and a report names an extension that is
      genuinely missing. */
  lemma IntendedValidateSound(rules: seq<Rule>, registry: Registry)
    ensures Validate(Intended, rules, registry).Valid? <==>
              forall k :: 0 <= k < |rules| ==> RuleDeclared(rules[k], registry)
    ensures var r := Validate(Intended, rules, registry);
            r.NotAssigned? ==> r.language in registry && !Listed(registry[r.language], r.ext)
  {
    forall k | 0 <= k < |rules|
      ensures RuleListed(Intended, rules[k], registry) <==> RuleDeclared(rules[k], registry)
    {
      var names, exts := OutcomeLanguages(rules[k].tests), rules[k].extensions;
      var c := CheckLanguages(Intended, exts, names, registry);
      assert forall m :: 0 <= m < |names| && names[m] in registry ==>
               forall e :: 0 <= e < |exts| ==> (Accepts(Intended, registry[names[m]], exts[e]) <==> Listed(registry[names[m]], exts[e]));
    }
  }
}
